=== FILE: README.md ===
# Timer and Counter — a Dafny model of its core

The program is a small always-on-top window. It has a stopwatch field showing
`HH:MM:SS`, Start and Pause buttons, an Add/Sub counter, and a list box that
records the field's text each time Add is pressed. Almost all of `Counter.py`
is widget wiring. This project models the logic inside the `TimerGUI` methods
as pure state transitions. The wall clock is an integer argument `now`, in
whole seconds.

Modules, one per part of the core:

- `Wrappers`: the `Option` datatype used for parse failures.
- `Decimal`: decimal numerals, covering how `int(token)` reads a token and how the `{:02d}` format writes a number.
- `TimeText`: the field's text. `ParseTime` is `split(":")` plus three `int`s combined as `h*3600 + m*60 + s`. `FormatTime` is the two `divmod` steps plus zero padding. The round trip between them is proved.
- `Timer`: the state `running`, `startTime`, `elapsed` and the field text, with the transitions `Start`, `Pause` and `Tick` (one refresh; it returns the new state and whether to reschedule).
- `EntryLog`: the count and the list of recorded rows, with the transitions `Add`, `Subtract` and `UpdateItem`, plus sequences of presses proved equal to a plain push/pop stack (`RunIsStack`).
- `App`: the two parts side by side. Add records the field's current text.

Notes on what the code does:

- A row is only a string. The code stores no creation time with it.
- Committing an edit (`update_item`) reads row `i`, deletes it and inserts the same text back at `i`. For a row that still exists it is therefore the identity on the log, not a replacement with new text.
- Add (one row and +1) and Sub (one row and -1, only at a positive count) keep the number of rows equal to the count, and so does the edit commit. Suppose the row being edited is the last one, and Sub removes it before Return is pressed. Then `update_item` gets a stale index, and `itemconfig` raises at that index (Counter.py:114) before the delete and the insert. The list stays as it was.
- A successful Start does not leave the typed text in the field. `start_timer` calls `update_timer` at once, which rewrites the field in canonical form (so `"0:90:5"` is displayed as `"01:30:05"`).

## Model

| member | source | states |
|---|---|---|
| Decimal.ParseToDigits | Counter.py:74 | `int()` reads the numeral that `{:d}` writes for `n` back as `n` |
| Decimal.ToDigitsParse | Counter.py:50 | Conversely, a digit token without a superfluous leading zero is exactly the numeral written for the number it reads as |
| Decimal.ToDigits | Counter.py:74 | The numeral written for `n` is non-empty digits denoting `n`, "0" for zero and with no leading zero otherwise |
| Decimal.PadZeros | Counter.py:74 | Zero padding reaches the requested width (never shortens), keeps the value, and keeps the original digits as the suffix |
| Decimal.Pad2 | Counter.py:74 | `{:02d}` writes at least two digits, exactly two below 100, no leading zero beyond the padding, and the number's own value |
| TimeText.Split | Counter.py:50 | `split(":")` yields one more piece than there are colons, and no piece contains a colon |
| TimeText.JoinSplit | Counter.py:50 | Joining the pieces of a split with ':' gives back the original text |
| TimeText.SplitJoin | Counter.py:50 | Splitting colon-free tokens joined by ':' gives back exactly those tokens |
| TimeText.ParseTime | Counter.py:48-55 | With numerals of any length, parsing succeeds exactly when the text has two colons and all three tokens are digit strings; otherwise it is the ValueError path |
| TimeText.ParseFields | Counter.py:50-51 | `H:M:S` with numeral tokens reads as `H*3600 + M*60 + S` |
| TimeText.ParseWrongTokenCount | Counter.py:50-52 | Text with a token count other than three is rejected |
| TimeText.SplitSeconds | Counter.py:72-74 | The fields written for `n` have minutes and seconds as exactly two digits below 60 and hours as at least two digits, with no extra leading zero, and they denote `n` seconds |
| TimeText.FormatTime | Counter.py:74 | The written text has exactly two colons, at positions 3 and 6 from the end, and is at least 8 characters long |
| TimeText.ParseFormat | Counter.py:72-74 | Round trip: the text written for any `n >= 0` reads back as `n` |
| TimeText.FormatParse | Counter.py:72-74 | A canonical `HH:MM:SS` text reads as its seconds, and formatting those seconds gives back exactly that text |
| TimeText.CanonicalUnique | Counter.py:72-74 | Two canonical field triples that denote the same number of seconds are equal, so the format is injective |
| TimeText.FormatZero | Counter.py:54 | The fallback text "00:00:00" is exactly the text written for zero seconds |
| TimeText.FormatExample | Counter.py:72-74 | 3661 seconds display as "01:01:01" |
| Timer.Tick | Counter.py:69-77 | While running, a refresh writes a field that reads back as the accumulated seconds plus the current segment, and asks to be rescheduled. While stopped it changes nothing and ends the refresh chain. No other part of the state changes |
| Timer.Start | Counter.py:45-58 | A running timer ignores Start. A stopped one runs from `now`, takes its baseline from the field, or 0 with the field reset to "00:00:00" when the field does not parse, and refreshes at once |
| Timer.Pause | Counter.py:62-65 | A stopped timer ignores Pause. A running one stops with the segment `now - startTime` folded into the elapsed seconds. The field and start time are untouched |
| Timer.PauseTwice | Counter.py:63-65 | Pausing twice equals pausing once |
| Timer.StartTwice | Counter.py:46 | A second Start changes nothing and does not reschedule |
| Timer.StartThenPause | Counter.py:45-65 | Start from a parsable field, then Pause in the same second, leaves exactly the entered seconds accumulated |
| Timer.ResumeFromDisplay | Counter.py:48-76 | After refresh, Pause and Start, the timer resumes from the value last displayed. The seconds between that refresh and the pause are dropped |
| Timer.TickMonotone | Counter.py:70-74 | Later refreshes of one running segment never display less time |
| Timer.RefreshFromZero | Counter.py:70-74 | A segment started from zero displays exactly `now - startTime` |
| Timer.RefreshAtZero | Counter.py:53-58 | The refresh made right after a fallback start writes "00:00:00" |
| Timer.InitialReadsZero | Counter.py:18 | The field's initial text reads as zero seconds |
| EntryLog.Add | Counter.py:79-84 | Add raises the count by one and appends exactly the given text after the unchanged earlier rows |
| EntryLog.Subtract | Counter.py:88-93 | At a count of zero or below Sub changes nothing. Otherwise it lowers the count by one and removes exactly the last row |
| EntryLog.Delete | Counter.py:120 | Deleting row `i` keeps the rows before it and shifts the later ones up by one |
| EntryLog.Insert | Counter.py:121 | Inserting at `i` puts the text at `i`, keeps the rows before it and shifts the later ones down by one |
| EntryLog.UpdateItem | Counter.py:112-121 | Committing an edit of an existing row leaves the rows and the count unchanged. A commit at a row index past the end stops at `itemconfig` and also leaves the log unchanged. Either way a valid log stays valid |
| EntryLog.StaleEdit | Counter.py:88-121 | Adding a row, editing it, pressing Sub and then committing leaves exactly the log from before the Add, still valid |
| EntryLog.ApplyValid | Counter.py:79-93 | Each Add or Sub keeps the count non-negative and equal to the number of rows |
| EntryLog.RunIsStack | Counter.py:79-93 | After any sequence of Adds and Subs from a valid log, the log is still valid and its rows are exactly those of a plain push/pop stack |
| EntryLog.RunCount | Counter.py:81-90 | The count equals the starting count plus the Adds minus the Subs made at a positive count |
| EntryLog.AddThenSubtract | Counter.py:79-93 | Sub right after Add restores both the rows and the count |
| App.AddToCart | Counter.py:79-84 | Add records the field's current text as the new last row, leaves the timer alone and keeps a valid log valid |
| App.SubtractFromCart | Counter.py:88-93 | Sub leaves the timer alone; at a positive count it removes exactly the last row, at zero it changes nothing, and it keeps a valid log valid |
| App.AddThenSubtract | Counter.py:79-93 | Sub right after Add restores the whole window state |
| App.RecordedTimeReadsBack | Counter.py:69-84 | A row recorded after a refresh while running reads back as the elapsed seconds at that refresh |
| App.InitialValid | Counter.py:11-18 | The window starts stopped, with a valid empty log and a field that reads as zero seconds |

## Left out

- Widget construction, layout, colours, fonts, button enabling, the scrollbar and the topmost attribute (Counter.py:7-43, 59-60, 66-67, 85, 96). These are presentation only.
- The selection and highlighting in `edit_item` and `update_item`, the key and focus bindings, and the debug `print` (Counter.py:98-109, 114-119). These are event plumbing. Only the delete and re-insert of the committed row is modelled.
- `master.after(1000, ...)`: the event loop is not modelled. `Tick` returns a reschedule flag instead.
- `time.time()` floats: the clock is a whole number of seconds. Fractional seconds and the `int()` truncation of the formatted fields are not modelled.
- Python `int()` leniency: it also accepts signs, surrounding whitespace, underscores and non-ASCII digits (e.g. `"-1:00:00"`). Tokens here are non-empty ASCII digit strings, so negative elapsed times and `divmod` flooring of negatives are out of scope.
- TimeText.ParseTime: numerals are unbounded here. Python's default limit of 4300 digits on converting between int and decimal text is not modelled. Beyond it, `int()` raises at Counter.py:50, which is the fallback to 0 and "00:00:00". Likewise `{:02d}` raises at Counter.py:74 for an hours value of more than 4300 digits, so the refresh that `Timer.Start` and `Timer.Tick` model would stop without rewriting the field or rescheduling.
- A clock that runs backwards: `Pause` and `Tick` require `now >= startTime` while running, so the elapsed time stays a natural number.
- Typing into the field: the field is an ordinary component of the timer state that the user may set to any text. There is no separate operation for it.
- EntryLog.UpdateItem: for a row index past the end, the `TclError` that `itemconfig` raises (Counter.py:114) is modelled as an unchanged log. The error report that Tkinter's callback wrapper prints is not modelled.
- The module-level `Tk()` / `mainloop()` startup (Counter.py:124-126).
- Timer.Start: for a parsable field the contract states that the refreshed field reads back as the parsed seconds. It does not spell out the canonical text, which is `FormatTime` of those seconds.
- Timer.Tick: states what the written field reads back as, not its exact characters. Those characters are stated by `TimeText.SplitSeconds` and `TimeText.FormatParse`.

=== FILE: app.dfy ===
/**
  The window as a whole: one timer and one entry log side by side. The
  only coupling is that Add records whatever the time field shows
  (Counter.py:80-84).
 */
module App {
  import opened Wrappers
  import opened TimeText
  import Timer
  import EntryLog

  datatype State = State(timer: Timer.Timer, log: EntryLog.Log)

  const Initial := State(Timer.Initial, EntryLog.Empty)

  /** The Add button: the field's current text becomes the new last row. */
  function AddToCart(s: State): (r: State)
    ensures r.timer == s.timer
    ensures r.log.count == s.log.count + 1
    ensures r.log.entries == s.log.entries + [s.timer.field]
    ensures EntryLog.Valid(s.log) ==> EntryLog.Valid(r.log)
  {
    s.(log := EntryLog.Add(s.log, s.timer.field))
  }

  /** The Sub button; the timer is not involved. */
  function SubtractFromCart(s: State): (r: State)
    ensures r.timer == s.timer
    ensures s.log.count <= 0 ==> r == s
    ensures s.log.count > 0 ==> r.log.count == s.log.count - 1
    ensures EntryLog.Valid(s.log) && s.log.count > 0 ==> r.log.entries + [s.log.entries[|s.log.entries| - 1]] == s.log.entries
    ensures EntryLog.Valid(s.log) ==> EntryLog.Valid(r.log)
  {
    s.(log := EntryLog.Subtract(s.log))
  }

  /** Sub right after Add removes the row Add recorded and leaves the window as it was. */
  lemma AddThenSubtract(s: State)
    requires s.log.count >= 0
    ensures SubtractFromCart(AddToCart(s)) == s
  {
    EntryLog.AddThenSubtract(s.log, s.timer.field);
  }

  /**
    A row recorded while the timer runs, after a refresh at `now`, reads back
    as the elapsed seconds at that refresh.
   */
  lemma RecordedTimeReadsBack(s: State, now: int)
    requires s.timer.running && s.timer.startTime <= now
    ensures var recorded := AddToCart(s.(timer := Timer.Tick(s.timer, now).timer));
            ParseTime(recorded.log.entries[|recorded.log.entries| - 1]) == Some(Timer.Shown(s.timer, now))
  {
  }

  /** The starting window has a valid log and a field that reads as zero seconds. */
  lemma InitialValid()
    ensures EntryLog.Valid(Initial.log) && !Initial.timer.running
    ensures ParseTime(Initial.timer.field) == Some(0)
  {
    Timer.InitialReadsZero();
  }
}

=== FILE: decimal.dfy ===
/**
  Decimal numerals: the digit strings that `int(...)` reads and that the
  `{:02d}` format writes. Only ASCII digits are modelled.
 */
module Decimal {
  import opened Wrappers

  predicate IsDigit(c: char) {
    '0' <= c <= '9'
  }

  /** Every character of `s` is a decimal digit (the empty string included). */
  predicate IsDigits(s: string) {
    forall i :: 0 <= i < |s| ==> IsDigit(s[i])
  }

  /** A token `int()` accepts in this model: one or more decimal digits. */
  predicate IsNumeral(s: string) {
    |s| > 0 && IsDigits(s)
  }

  function DigitValue(c: char): (d: nat)
    requires IsDigit(c)
    ensures d < 10
  {
    c as int - '0' as int
  }

  function DigitChar(d: nat): (c: char)
    requires d < 10
    ensures IsDigit(c) && DigitValue(c) == d
  {
    ('0' as int + d) as char
  }

  /** The number a digit string denotes, most significant digit first. */
  function Value(s: string): nat
    requires IsDigits(s)
    decreases |s|
  {
    if |s| == 0 then 0 else Value(s[..|s| - 1]) * 10 + DigitValue(s[|s| - 1])
  }

  /** Reads one token the way `int(token)` does, failing on anything but digits. */
  function ParseNat(tok: string): (r: Option<nat>)
    ensures r.Some? <==> IsNumeral(tok)
    ensures r.Some? ==> r.value == Value(tok)
  {
    if IsNumeral(tok) then Some(Value(tok)) else None
  }

  /** The shortest decimal numeral of `n`: no leading zero unless `n` is zero. */
  function ToDigits(n: nat): (s: string)
    ensures IsNumeral(s) && Value(s) == n
    ensures n == 0 ==> s == "0"
    ensures n > 0 ==> s[0] != '0'
    decreases n
  {
    if n < 10 then [DigitChar(n)]
    else
      var prefix := ToDigits(n / 10);
      var s := prefix + [DigitChar(n % 10)];
      assert s[..|s| - 1] == prefix;
      s
  }

  /** A leading zero does not change the value of a numeral. */
  lemma {:induction false} LeadingZero(s: string)
    requires IsDigits(s)
    ensures IsDigits(['0'] + s) && Value(['0'] + s) == Value(s)
  {
    var t := ['0'] + s;
    if |s| > 0 {
      var init := s[..|s| - 1];
      assert t[..|t| - 1] == ['0'] + init;
      LeadingZero(init);
    } else {
      assert t[..|t| - 1] == [];
    }
  }

  /**
    Left-pads a numeral with '0' up to `width` characters, as the `0<width>d`
    format does; a numeral already that long is left as it is.
   */
  function PadZeros(s: string, width: nat): (r: string)
    requires IsDigits(s)
    ensures IsDigits(r) && Value(r) == Value(s)
    ensures |r| == if |s| >= width then |s| else width
    ensures |r| > |s| ==> r[0] == '0'
    ensures r[|r| - |s|..] == s
    decreases width - |s|
  {
    if |s| >= width then s
    else
      LeadingZero(s);
      var r := PadZeros(['0'] + s, width);
      assert r[|r| - |s|..] == (r[|r| - |s| - 1..])[1..];
      r
  }

  /**
    A number written with the `{:02d}` format: at least two digits, exactly
    two below 100, and no leading zero when longer than two.
   */
  function Pad2(k: nat): (r: string)
    ensures IsNumeral(r) && Value(r) == k
    ensures |r| >= 2
    ensures k < 100 ==> |r| == 2
    ensures |r| > 2 ==> r[0] != '0'
  {
    var r := PadZeros(ToDigits(k), 2);
    if k < 100 then ShortNumeral(k); r else r
  }

  /** A number below 100 has a numeral of at most two digits. */
  lemma ShortNumeral(k: nat)
    requires k < 100
    ensures |ToDigits(k)| <= 2
  {
  }

  /** A numeral with fewer digits is smaller than one with a non-zero leading digit. */
  lemma ShorterIsSmaller(a: string, b: string)
    ensures IsNumeral(a) && IsNumeral(b) && |a| < |b| && b[0] != '0' ==> Value(a) < Value(b)
  {
    if IsNumeral(a) && IsNumeral(b) && |a| < |b| && b[0] != '0' {
      LengthBounds(a);
      LengthBounds(b);
      Pow10Mono(|a|, |b| - 1);
    }
  }

  function Pow10(k: nat): (p: nat)
    ensures p >= 1
  {
    if k == 0 then 1 else 10 * Pow10(k - 1)
  }

  lemma {:induction false} Pow10Mono(i: nat, j: nat)
    requires i <= j
    ensures Pow10(i) <= Pow10(j)
    decreases j
  {
    if i < j {
      Pow10Mono(i, j - 1);
    }
  }

  /** A numeral of `k` digits is below 10^k, and at least 10^(k-1) when it starts with a non-zero digit. */
  lemma {:induction false} LengthBounds(s: string)
    requires IsNumeral(s)
    ensures Value(s) < Pow10(|s|)
    ensures s[0] != '0' ==> Pow10(|s| - 1) <= Value(s)
    decreases |s|
  {
    var init := s[..|s| - 1];
    if |init| > 0 {
      LengthBounds(init);
      assert init[0] == s[0];
    }
  }

  /** Two numerals of the same length with the same value are the same text. */
  lemma {:induction false} SameLengthUnique(a: string, b: string)
    requires IsDigits(a) && IsDigits(b) && |a| == |b| && Value(a) == Value(b)
    ensures a == b
    decreases |a|
  {
    if |a| > 0 {
      var ia := a[..|a| - 1];
      var ib := b[..|b| - 1];
      assert DigitValue(a[|a| - 1]) == Value(a) % 10 && DigitValue(b[|b| - 1]) == Value(b) % 10;
      assert Value(ia) == Value(a) / 10 && Value(ib) == Value(b) / 10;
      SameLengthUnique(ia, ib);
      assert a == ia + [a[|a| - 1]] && b == ib + [b[|b| - 1]];
    }
  }

  /** Reading the numeral written for `n` gives back `n`. */
  lemma ParseToDigits(n: nat)
    ensures ParseNat(ToDigits(n)) == Some(n)
  {
  }

  /**
    The other direction: a numeral without a superfluous leading zero is
    exactly what is written for the number it reads as.
   */
  lemma ToDigitsParse(tok: string)
    requires IsNumeral(tok) && (tok == "0" || tok[0] != '0')
    ensures ParseNat(tok).Some? && ToDigits(ParseNat(tok).value) == tok
  {
    var d := ToDigits(Value(tok));
    ShorterIsSmaller(tok, d);
    ShorterIsSmaller(d, tok);
    SameLengthUnique(tok, d);
  }
}

=== FILE: entry_log.dfy ===
/**
  The counter and the list of recorded times behind the Add and Sub
  buttons and the list box (Counter.py:79-121).
 */
module EntryLog {

  /** The count shown as "Count: n" and the list box rows, oldest first. */
  datatype Log = Log(count: int, entries: seq<string>)

  const Empty := Log(0, [])

  /** What every reachable log satisfies: a non-negative count, one row per unit of it. */
  predicate Valid(l: Log) {
    l.count >= 0 && |l.entries| == l.count
  }

  /** The Add button: the count goes up and `text` becomes the new last row. */
  function Add(l: Log, text: string): (r: Log)
    ensures r.count == l.count + 1
    ensures |r.entries| == |l.entries| + 1
    ensures r.entries[..|l.entries|] == l.entries && r.entries[|l.entries|] == text
  {
    Log(l.count + 1, l.entries + [text])
  }

  /**
    The Sub button: at a positive count the count goes down and the last
    row, if any, is removed; at zero (or below) nothing changes.
   */
  function Subtract(l: Log): (r: Log)
    ensures l.count <= 0 ==> r == l
    ensures l.count > 0 ==> r.count == l.count - 1
    ensures l.count > 0 && |l.entries| > 0 ==> r.entries + [l.entries[|l.entries| - 1]] == l.entries
    ensures l.count > 0 && |l.entries| == 0 ==> r.entries == []
  {
    if l.count > 0 then
      Log(l.count - 1, if |l.entries| > 0 then l.entries[..|l.entries| - 1] else l.entries)
    else l
  }

  /** The list without its row at `i`; the rows after it move up by one. */
  function Delete(s: seq<string>, i: nat): (r: seq<string>)
    requires i < |s|
    ensures |r| == |s| - 1
    ensures forall j :: 0 <= j < i ==> r[j] == s[j]
    ensures forall j :: i <= j < |r| ==> r[j] == s[j + 1]
  {
    s[..i] + s[i + 1..]
  }

  /** The list with `x` placed before the row at `i` (at the end when `i == |s|`). */
  function Insert(s: seq<string>, i: nat, x: string): (r: seq<string>)
    requires i <= |s|
    ensures |r| == |s| + 1 && r[i] == x
    ensures forall j :: 0 <= j < i ==> r[j] == s[j]
    ensures forall j :: i < j < |r| ==> r[j] == s[j - 1]
  {
    s[..i] + [x] + s[i..]
  }

  /**
    Committing an edit of row `i`: the row's text is read, the row deleted,
    and the same text inserted back at `i`, so an in-range commit is the
    identity. Past the end (a row Sub removed while the edit was pending),
    resetting the row's colour raises before the delete and the insert run,
    and the error handler leaves the list as it was.
   */
  function UpdateItem(l: Log, i: nat): (r: Log)
    ensures i < |l.entries| ==> r == l
    ensures i >= |l.entries| ==> r == l
    ensures Valid(l) ==> Valid(r)
  {
    if i < |l.entries| then
      var text := l.entries[i];
      var updated := Insert(Delete(l.entries, i), i, text);
      assert updated == l.entries;
      l.(entries := updated)
    else l
  }

  /**
    The reachable stale commit: Add a row, start editing it, press Sub (which
    removes it without ending the edit), then commit. The log is back to where
    it was before the Add, and still valid.
   */
  lemma StaleEdit(l: Log, text: string)
    requires Valid(l)
    ensures var stale := UpdateItem(Subtract(Add(l, text)), |l.entries|);
            stale == l && Valid(stale)
  {
  }

  /** A press of Add (with the field's text at that moment) or of Sub. */
  datatype Press = AddPress(text: string) | SubtractPress

  function Apply(l: Log, p: Press): Log {
    match p
    case AddPress(text) => Add(l, text)
    case SubtractPress => Subtract(l)
  }

  /** The log after a sequence of presses, first press first. */
  function Run(l: Log, presses: seq<Press>): Log
    decreases |presses|
  {
    if |presses| == 0 then l else Run(Apply(l, presses[0]), presses[1..])
  }

  /** Number of Add presses. */
  function Adds(presses: seq<Press>): nat
    decreases |presses|
  {
    if |presses| == 0 then 0 else (if presses[0].AddPress? then 1 else 0) + Adds(presses[1..])
  }

  /** Number of Sub presses that acted, that is, were made at a positive count. */
  function EffectiveSubtracts(l: Log, presses: seq<Press>): nat
    decreases |presses|
  {
    if |presses| == 0 then 0
    else
      (if presses[0].SubtractPress? && l.count > 0 then 1 else 0)
      + EffectiveSubtracts(Apply(l, presses[0]), presses[1..])
  }

  /**
    The reference behaviour: one stack of texts, where Add pushes and Sub
    pops the top when there is one.
   */
  function Stack(s: seq<string>, presses: seq<Press>): seq<string>
    decreases |presses|
  {
    if |presses| == 0 then s
    else
      var next := match presses[0]
        case AddPress(text) => s + [text]
        case SubtractPress => if |s| > 0 then s[..|s| - 1] else s;
      Stack(next, presses[1..])
  }

  /** Every press keeps the log valid. */
  lemma ApplyValid(l: Log, p: Press)
    requires Valid(l)
    ensures Valid(Apply(l, p))
  {
  }

  /**
    From a valid log, any sequence of presses leaves a valid log whose rows
    are exactly the reference stack, so the count never goes negative and
    always equals the number of rows.
   */
  lemma {:induction false} RunIsStack(l: Log, presses: seq<Press>)
    requires Valid(l)
    ensures Valid(Run(l, presses))
    ensures Run(l, presses).entries == Stack(l.entries, presses)
    decreases |presses|
  {
    if |presses| > 0 {
      ApplyValid(l, presses[0]);
      RunIsStack(Apply(l, presses[0]), presses[1..]);
    }
  }

  /** The count is the starting count plus the Adds minus the Subs that acted. */
  lemma {:induction false} RunCount(l: Log, presses: seq<Press>)
    ensures Run(l, presses).count == l.count + Adds(presses) - EffectiveSubtracts(l, presses)
    decreases |presses|
  {
    if |presses| > 0 {
      RunCount(Apply(l, presses[0]), presses[1..]);
    }
  }

  /** Sub right after Add undoes it, on any log with a non-negative count. */
  lemma AddThenSubtract(l: Log, text: string)
    requires l.count >= 0
    ensures Subtract(Add(l, text)) == l
  {
    assert (l.entries + [text])[..|l.entries|] == l.entries;
  }
}

=== FILE: time_text.dfy ===
/**
  The text of the timer field, `HH:MM:SS`: reading it back into seconds when
  the timer starts (Counter.py:48-55) and writing elapsed seconds into it on
  every tick (Counter.py:71-74).
 */
module TimeText {
  import opened Wrappers
  import opened Decimal

  /** Number of ':' characters in `s`. */
  function Colons(s: string): nat
    decreases |s|
  {
    if |s| == 0 then 0 else (if s[0] == ':' then 1 else 0) + Colons(s[1..])
  }

  /** Glues tokens back together with ':' between consecutive ones. */
  function Join(parts: seq<string>): string
    requires |parts| >= 1
    decreases |parts|
  {
    if |parts| == 1 then parts[0] else parts[0] + ":" + Join(parts[1..])
  }

  /**
    `s.split(":")`: the maximal colon-free pieces, empty ones included, so
    that "" splits into [""] and "a::b" into ["a", "", "b"].
   */
  function Split(s: string): (parts: seq<string>)
    ensures |parts| == Colons(s) + 1
    ensures forall i :: 0 <= i < |parts| ==> ':' !in parts[i]
    decreases |s|
  {
    if |s| == 0 then [""]
    else
      var rest := Split(s[1..]);
      if s[0] == ':' then [""] + rest
      else [[s[0]] + rest[0]] + rest[1..]
  }

  /** Splitting and joining again gives back the original text. */
  lemma {:induction false} JoinSplit(s: string)
    ensures Join(Split(s)) == s
    decreases |s|
  {
    if |s| > 0 {
      JoinSplit(s[1..]);
      var rest := Split(s[1..]);
      if s[0] != ':' && |rest| > 1 {
        assert ([[s[0]] + rest[0]] + rest[1..])[1..] == rest[1..];
      }
    }
  }

  lemma {:induction false} SplitNoColon(a: string)
    requires ':' !in a
    ensures Split(a) == [a]
    decreases |a|
  {
    if |a| > 0 {
      assert ':' !in a[1..];
      SplitNoColon(a[1..]);
      assert [a[0]] + a[1..] == a;
    }
  }

  lemma {:induction false} SplitAtColon(a: string, rest: string)
    requires ':' !in a
    ensures Split(a + ":" + rest) == [a] + Split(rest)
    decreases |a|
  {
    var s := a + ":" + rest;
    if |a| == 0 {
      assert s[0] == ':' && s[1..] == rest;
    } else {
      assert ':' !in a[1..];
      assert s[0] == a[0] && s[1..] == a[1..] + ":" + rest;
      SplitAtColon(a[1..], rest);
      assert [a[0]] + a[1..] == a;
    }
  }

  /** Joining colon-free tokens and splitting again gives back the tokens. */
  lemma {:induction false} SplitJoin(parts: seq<string>)
    requires |parts| >= 1
    requires forall i :: 0 <= i < |parts| ==> ':' !in parts[i]
    ensures Split(Join(parts)) == parts
    decreases |parts|
  {
    if |parts| == 1 {
      SplitNoColon(parts[0]);
    } else {
      SplitJoin(parts[1..]);
      SplitAtColon(parts[0], Join(parts[1..]));
      assert [parts[0]] + parts[1..] == parts;
    }
  }

  /**
    `hours, minutes, seconds = map(int, text.split(":"))` followed by
    `hours * 3600 + minutes * 60 + seconds`; None stands for the ValueError
    raised by a token count other than three or a token `int` rejects.
   */
  function ParseTime(text: string): (r: Option<nat>)
    ensures r.Some? <==> |Split(text)| == 3 && IsNumeral(Split(text)[0]) && IsNumeral(Split(text)[1]) && IsNumeral(Split(text)[2])
  {
    var parts := Split(text);
    if |parts| != 3 then None
    else
      var hours := ParseNat(parts[0]);
      var minutes := ParseNat(parts[1]);
      var seconds := ParseNat(parts[2]);
      if hours.Some? && minutes.Some? && seconds.Some? then
        Some(hours.value * 3600 + minutes.value * 60 + seconds.value)
      else None
  }

  /** Three colon-free tokens joined by colons split back into those tokens. */
  lemma SplitThree(h: string, m: string, s: string)
    requires ':' !in h && ':' !in m && ':' !in s
    ensures Split(h + ":" + m + ":" + s) == [h, m, s]
  {
    SplitJoin([h, m, s]);
    assert [h, m, s][1..] == [m, s] && [m, s][1..] == [s];
    assert Join([m, s]) == m + ":" + s;
    assert Join([h, m, s]) == h + ":" + (m + ":" + s);
    assert h + ":" + (m + ":" + s) == h + ":" + m + ":" + s;
  }

  /** Three numerals separated by colons read as hours, minutes and seconds. */
  lemma ParseFields(h: string, m: string, s: string)
    requires IsNumeral(h) && IsNumeral(m) && IsNumeral(s)
    ensures ParseTime(h + ":" + m + ":" + s) == Some(Value(h) * 3600 + Value(m) * 60 + Value(s))
  {
    SplitNumerals(h, m, s);
    ParseSplit(h, m, s);
  }

  lemma SplitNumerals(h: string, m: string, s: string)
    requires IsDigits(h) && IsDigits(m) && IsDigits(s)
    ensures Split(h + ":" + m + ":" + s) == [h, m, s]
  {
    NoColonInNumeral(h);
    NoColonInNumeral(m);
    NoColonInNumeral(s);
    SplitThree(h, m, s);
  }

  lemma ParseSplit(h: string, m: string, s: string)
    requires IsNumeral(h) && IsNumeral(m) && IsNumeral(s)
    requires Split(h + ":" + m + ":" + s) == [h, m, s]
    ensures ParseTime(h + ":" + m + ":" + s) == Some(Value(h) * 3600 + Value(m) * 60 + Value(s))
  {
  }

  lemma NoColonInNumeral(s: string)
    requires IsDigits(s)
    ensures ':' !in s
  {
    assert !IsDigit(':');
  }

  /** The three fields of a formatted time, each a decimal numeral. */
  datatype Fields = Fields(hours: string, minutes: string, seconds: string)

  function Render(f: Fields): string {
    f.hours + ":" + f.minutes + ":" + f.seconds
  }

  /**
    The shape the tick writes: three numerals, minutes and seconds exactly two
    digits and below 60, hours at least two digits with no superfluous
    leading zero.
   */
  predicate Canonical(f: Fields) {
    && IsNumeral(f.hours) && IsNumeral(f.minutes) && IsNumeral(f.seconds)
    && |f.minutes| == 2 && |f.seconds| == 2 && |f.hours| >= 2
    && (|f.hours| > 2 ==> f.hours[0] != '0')
    && Value(f.minutes) < 60 && Value(f.seconds) < 60
  }

  /** The number of seconds three numeric fields stand for. */
  function Seconds(f: Fields): nat
    requires IsNumeral(f.hours) && IsNumeral(f.minutes) && IsNumeral(f.seconds)
  {
    Value(f.hours) * 3600 + Value(f.minutes) * 60 + Value(f.seconds)
  }

  /**
    The two `divmod` steps of the tick and the `{:02d}` padding of each
    field: the fields are canonical and together denote `n` seconds.
   */
  function SplitSeconds(n: nat): (f: Fields)
    ensures Canonical(f) && Seconds(f) == n
  {
    var totalMinutes := n / 60;
    var seconds := n % 60;
    var hours := totalMinutes / 60;
    var minutes := totalMinutes % 60;
    DivModSteps(n);
    PaddedFields(hours, minutes, seconds);
    Fields(Pad2(hours), Pad2(minutes), Pad2(seconds))
  }

  /** Hours, minutes below 60 and seconds below 60, each written with `{:02d}`. */
  lemma PaddedFields(h: nat, m: nat, s: nat)
    requires m < 60 && s < 60
    ensures Canonical(Fields(Pad2(h), Pad2(m), Pad2(s)))
    ensures Seconds(Fields(Pad2(h), Pad2(m), Pad2(s))) == h * 3600 + m * 60 + s
  {
    var hh, mm, ss := Pad2(h), Pad2(m), Pad2(s);
    assert Value(hh) == h && Value(mm) == m && Value(ss) == s;
    assert |mm| == 2 && |ss| == 2;
  }

  /** The two `divmod` steps recombine to the total they split. */
  lemma DivModSteps(n: nat)
    ensures n % 60 < 60 && (n / 60) % 60 < 60
    ensures (n / 60) / 60 * 3600 + (n / 60) % 60 * 60 + n % 60 == n
  {
  }

  /** The text a tick writes into the field for `n` elapsed seconds. */
  function FormatTime(n: nat): (r: string)
    ensures |r| >= 8 && r[|r| - 6] == ':' && r[|r| - 3] == ':'
    ensures Colons(r) == 2
  {
    var r := Render(SplitSeconds(n));
    ColonsRender(SplitSeconds(n));
    r
  }

  lemma {:induction false} ColonsDigits(s: string)
    requires IsDigits(s)
    ensures Colons(s) == 0
    decreases |s|
  {
    if |s| > 0 {
      assert IsDigits(s[1..]) by {
        forall i | 0 <= i < |s[1..]| ensures IsDigit(s[1..][i]) {
          assert s[1..][i] == s[i + 1];
        }
      }
      ColonsDigits(s[1..]);
    }
  }

  lemma {:induction false} ColonsAppend(a: string, b: string)
    ensures Colons(a + b) == Colons(a) + Colons(b)
    decreases |a|
  {
    if |a| > 0 {
      assert (a + b)[1..] == a[1..] + b;
      ColonsAppend(a[1..], b);
    } else {
      assert a + b == b;
    }
  }

  lemma ColonsRender(f: Fields)
    requires IsDigits(f.hours) && IsDigits(f.minutes) && IsDigits(f.seconds)
    ensures Colons(Render(f)) == 2
  {
    ColonsDigits(f.hours);
    ColonsDigits(f.minutes);
    ColonsDigits(f.seconds);
    ColonsAppend(f.hours, ":");
    ColonsAppend(f.hours + ":", f.minutes);
    ColonsAppend(f.hours + ":" + f.minutes, ":");
    ColonsAppend(f.hours + ":" + f.minutes + ":", f.seconds);
  }

  /**
    Round trip: the text written for `n` seconds reads back as `n`. This is
    what lets a paused timer resume from the time it displays.
   */
  lemma ParseFormat(n: nat)
    ensures ParseTime(FormatTime(n)) == Some(n)
  {
    var f := SplitSeconds(n);
    assert FormatTime(n) == Render(f);
    ParseRender(f);
  }

  /** Three numeric fields rendered as `H:M:S` read back as the seconds they denote. */
  lemma ParseRender(f: Fields)
    requires IsNumeral(f.hours) && IsNumeral(f.minutes) && IsNumeral(f.seconds)
    ensures ParseTime(Render(f)) == Some(Seconds(f))
  {
    ParseFields(f.hours, f.minutes, f.seconds);
  }

  /**
    A canonical `HH:MM:SS` text for `n` seconds reads back as `n`, and is
    exactly the text formatting `n` writes.
   */
  lemma FormatParse(f: Fields, n: nat)
    requires Canonical(f) && Seconds(f) == n
    ensures ParseTime(Render(f)) == Some(n)
    ensures FormatTime(n) == Render(f)
  {
    ParseRender(f);
    assert FormatTime(n) == Render(f) by {
      CanonicalUnique(f, SplitSeconds(n));
    }
  }

  /** Two canonical field triples denoting the same number of seconds are equal. */
  lemma CanonicalUnique(f: Fields, g: Fields)
    requires Canonical(f) && Canonical(g) && Seconds(f) == Seconds(g)
    ensures f == g
  {
    DivModFields(Value(f.hours), Value(f.minutes), Value(f.seconds), Value(g.hours), Value(g.minutes), Value(g.seconds));
    SameLengthUnique(f.minutes, g.minutes);
    SameLengthUnique(f.seconds, g.seconds);
    HoursUnique(f.hours, g.hours);
  }

  /** Mixed-radix digits below 60 are determined by the total they denote. */
  lemma DivModFields(h: nat, m: nat, s: nat, h': nat, m': nat, s': nat)
    requires m < 60 && s < 60 && m' < 60 && s' < 60
    requires h * 3600 + m * 60 + s == h' * 3600 + m' * 60 + s'
    ensures h == h' && m == m' && s == s'
  {
  }

  /**
    Two numerals of at least two digits, without a superfluous leading zero,
    that have the same value are the same text.
   */
  lemma HoursUnique(a: string, b: string)
    requires IsNumeral(a) && IsNumeral(b) && |a| >= 2 && |b| >= 2
    requires |a| > 2 ==> a[0] != '0'
    requires |b| > 2 ==> b[0] != '0'
    requires Value(a) == Value(b)
    ensures a == b
  {
    ShorterIsSmaller(a, b);
    ShorterIsSmaller(b, a);
    if |a| == |b| {
      SameLengthUnique(a, b);
    }
  }

  /**
    The three fields of "00:00:00" and of "01:01:01" are canonical and denote
    0 and 3661 seconds. The string is a parameter restricted to those two
    texts, rather than a literal, so that the verifier does not unfold the
    numeral functions on a constant argument.
   */
  lemma Uniform(d: string, v: nat)
    requires d == "00" || d == "01"
    requires v == if d == "00" then 0 else 3661
    ensures Canonical(Fields(d, d, d)) && Seconds(Fields(d, d, d)) == v
  {
    assert d[..1] == "0" && "0"[..0] == "";
  }

  /**
    The fallback text the field is reset to is the format of zero seconds.
    The number is a parameter pinned to zero, for the same reason as in
    `Uniform`; callers pass whatever zero-valued expression they hold.
   */
  lemma FormatZero(n: nat)
    requires n == 0
    ensures FormatTime(n) == "00:00:00"
    ensures ParseTime(FormatTime(n)) == Some(0)
  {
    Uniform("00", 0);
    assert Render(Fields("00", "00", "00")) == "00:00:00";
    FormatParse(Fields("00", "00", "00"), n);
  }

  /** One hour, one minute and one second display as "01:01:01". */
  lemma FormatExample()
    ensures FormatTime(3661) == "01:01:01"
  {
    Uniform("01", 3661);
    assert Render(Fields("01", "01", "01")) == "01:01:01";
    FormatParse(Fields("01", "01", "01"), 3661);
  }

  /** Text with a token count other than three is rejected. */
  lemma ParseWrongTokenCount(text: string)
    requires Colons(text) != 2
    ensures ParseTime(text) == None
  {
  }
}

=== FILE: timer.dfy ===
/**
  The start/pause state machine behind the Start and Pause buttons and the
  once-a-second refresh (Counter.py:45-77). The wall clock is an integer
  parameter `now`, in whole seconds.
 */
module Timer {
  import opened Wrappers
  import opened TimeText

  /**
    Whether the timer runs, the clock reading at which the current running
    segment began, the seconds accumulated before that segment, and the
    text of the time field, which the user may overwrite at any time.
   */
  datatype Timer = Timer(running: bool, startTime: int, elapsed: nat, field: string)

  /**
    The state at program start. The program has no start time yet
    (`start_time` is None, Counter.py:11); it is only read while running,
    so any value stands for that absence.
   */
  const Initial := Timer(false, 0, 0, "00:00:00")

  /** What one refresh produces: the new state and whether to run again in a second. */
  datatype Step = Step(timer: Timer, reschedule: bool)

  /** The clock never reads earlier than the start of the running segment. */
  predicate ClockOk(t: Timer, now: int) {
    t.running ==> t.startTime <= now
  }

  /**
    The elapsed time the timer stands for at `now`: the accumulated seconds,
    plus the current segment while it runs.
   */
  function Shown(t: Timer, now: int): nat
    requires ClockOk(t, now)
  {
    if t.running then t.elapsed + (now - t.startTime) else t.elapsed
  }

  /**
    The refresh: while running, the field shows the elapsed time and the
    refresh asks to run again; while stopped, nothing happens and the
    refresh chain ends.
   */
  function Tick(t: Timer, now: int): (r: Step)
    requires ClockOk(t, now)
    ensures r.reschedule == t.running
    ensures r.timer.(field := t.field) == t
    ensures t.running ==> ParseTime(r.timer.field) == Some(Shown(t, now))
    ensures !t.running ==> r.timer == t
  {
    if t.running then
      ParseFormat(Shown(t, now));
      Step(t.(field := FormatTime(Shown(t, now))), true)
    else Step(t, false)
  }

  /**
    The Start button. A running timer ignores it. A stopped one reads its
    baseline from the field (falling back to zero and "00:00:00" when the
    field does not parse), starts its segment at `now`, and refreshes at once.
   */
  function Start(t: Timer, now: int): (r: Step)
    ensures t.running ==> r == Step(t, false)
    ensures !t.running ==> r.timer.running && r.timer.startTime == now && r.reschedule
    ensures !t.running && ParseTime(t.field).Some? ==>
              r.timer.elapsed == ParseTime(t.field).value && ParseTime(r.timer.field) == ParseTime(t.field)
    ensures !t.running && ParseTime(t.field).None? ==>
              r.timer.elapsed == 0 && r.timer.field == "00:00:00"
  {
    if t.running then Step(t, false)
    else
      match ParseTime(t.field)
      case Some(n) =>
        var started := t.(running := true, startTime := now, elapsed := n);
        assert Shown(started, now) == n;
        Tick(started, now)
      case None =>
        var started := t.(running := true, startTime := now, elapsed := 0, field := "00:00:00");
        RefreshAtZero(started, now);
        Tick(started, now)
  }

  /** A refresh in the very second a segment starts from zero writes "00:00:00". */
  lemma RefreshAtZero(t: Timer, now: int)
    requires t.running && t.elapsed == 0 && t.startTime == now
    ensures Tick(t, now) == Step(t.(field := "00:00:00"), true)
  {
    FormatZero(Shown(t, now));
  }

  /**
    The Pause button. A stopped timer ignores it. A running one stops and
    folds the current segment into the accumulated seconds; the field keeps
    whatever the last refresh wrote.
   */
  function Pause(t: Timer, now: int): (r: Timer)
    requires ClockOk(t, now)
    ensures !r.running
    ensures !t.running ==> r == t
    ensures t.running ==> r.elapsed == Shown(t, now) && r.startTime == t.startTime && r.field == t.field
  {
    if t.running then t.(running := false, elapsed := t.elapsed + (now - t.startTime))
    else t
  }

  /** Pausing twice is pausing once, whatever the clock says the second time. */
  lemma PauseTwice(t: Timer, now: int, later: int)
    requires ClockOk(t, now)
    ensures Pause(Pause(t, now), later) == Pause(t, now)
  {
  }

  /** Starting twice is starting once: the second press changes nothing. */
  lemma StartTwice(t: Timer, now: int, later: int)
    ensures Start(Start(t, now).timer, later).timer == Start(t, now).timer
    ensures !t.running ==> !Start(Start(t, now).timer, later).reschedule
  {
  }

  /** Starting from a field and pausing in the same second keeps the entered time. */
  lemma StartThenPause(t: Timer, now: int)
    requires !t.running && ParseTime(t.field).Some?
    ensures Pause(Start(t, now).timer, now).elapsed == ParseTime(t.field).value
  {
  }

  /**
    Resuming continues from the time the field displays: after a refresh at
    `tickAt`, a pause at `pauseAt` and a start at `resumeAt`, the timer runs
    again from the refreshed value. The seconds between the last refresh and
    the pause, which the pause folded in, are dropped, because Start re-reads
    the field.
   */
  lemma {:induction false} ResumeFromDisplay(t: Timer, tickAt: int, pauseAt: int, resumeAt: int)
    requires t.running && t.startTime <= tickAt <= pauseAt
    ensures var shown := Tick(t, tickAt).timer;
            var paused := Pause(shown, pauseAt);
            var resumed := Start(paused, resumeAt).timer;
            && resumed.running && resumed.startTime == resumeAt
            && resumed.elapsed == Shown(t, tickAt)
            && resumed.field == shown.field
            && paused.elapsed - resumed.elapsed == pauseAt - tickAt
  {
    var shown := Tick(t, tickAt).timer;
    ParseFormat(Shown(t, tickAt));
    assert shown.field == FormatTime(Shown(t, tickAt));
  }

  /** Later refreshes of one running segment never show less time. */
  lemma TickMonotone(t: Timer, a: int, b: int)
    requires t.running && t.startTime <= a <= b
    ensures ParseTime(Tick(t, a).timer.field).Some? && ParseTime(Tick(t, b).timer.field).Some?
    ensures ParseTime(Tick(t, a).timer.field).value <= ParseTime(Tick(t, b).timer.field).value
  {
  }

  /**
    A segment started from zero seconds (the initial field, or the fallback
    after a failed parse) shows exactly the whole seconds since its start.
   */
  lemma RefreshFromZero(s: Timer, now: int)
    requires s.running && s.elapsed == 0 && s.startTime <= now
    ensures Tick(s, now).timer.field == FormatTime(now - s.startTime)
  {
    var k: nat := now - s.startTime;
    assert Shown(s, now) == k;
  }

  /** The field of a freshly created timer reads as zero seconds. */
  lemma InitialReadsZero()
    ensures ParseTime(Initial.field) == Some(0)
  {
    FormatZero(Initial.elapsed);
  }
}

=== FILE: wrappers.dfy ===
/** The optional-value datatype used for parse results. */
module Wrappers {

  /** Either nothing (a failed parse) or a value. */
  datatype Option<+T> = None | Some(value: T)
}
